=== FILE: README.md ===
# BookScape book collection — a Dafny model

BookScape is a browser page for tracking books. A user adds books,
records reading progress, attaches star reviews, and exports or imports the
collection as JSON. The logic sits in `functionality.js`:

- a `Book` record with two derived display values: the average rating and
  the reading progress;
- a `BookManager` that owns the ordered `books` list. It adds, deletes and
  updates books, and after every change it writes the list to browser
  storage under the key `"books"`;
- form handlers that check user input before they call the manager;
- an upload handler that replaces the whole list with an imported JSON array.

This project models that logic with immutable Dafny datatypes and pure
functions, and proves properties about it:

- `wrappers.dfy` (`Wrappers`): the `Option` type.
- `books.dfy` (`Books`): `Review`, `Book`, the constructor defaults,
  `AverageRating` and `Progress`. Both derived values are exact `real`s.
- `collection.dfy` (`Collection`): the list operations on `seq<Book>`:
  - lookup of the first match;
  - append;
  - filter-delete;
  - first-match progress update;
  - first-match review append.
  It also proves order, frame ("nothing else changes") and uniqueness lemmas.
- `storage.dfy` (`Storage`): the stored form of the list. A store is
  `Option<seq<RawBook>>`. `None` stands for an absent key and for any stored
  falsy value, since `JSON.parse(...) || []` turns both into `[]`. In a
  `RawBook`, `pages`, `pagesRead` and `reviews` may be missing. `Save` and
  `Load` form a round trip. Loading applies the constructor's defaults:
  a missing page count becomes 0 and missing reviews become `[]`.
- `book_manager.dfy` (`Manager`): the manager state. A state is the list
  plus the store. Each operation returns the new state and the pop-up notice
  it raises. `InSync` means that a restart would rebuild exactly the books
  held in memory.
- `handlers.dfy` (`Handlers`): the form guards, one handler per form
  listener, the upload handler's array / not-array decision, one event
  `Step` that hands each event to its handler, and a `Run` over a sequence
  of events.

Behaviour of the code that the model makes explicit:

- `loadFromJSON` does not catch a `JSON.parse` error (functionality.js:88),
  and `new BookManager()` at functionality.js:94 is not guarded. A stored
  value that is falsy after parsing (`null`, `false`, `0`, `""`) gives the
  empty list through `|| []`. A truthy value that is not an array throws at
  `.map` (functionality.js:89). The model covers the absent key, falsy
  values and stored arrays.
- Nothing rejects a duplicate id (functionality.js:42-43).
  `Collection.DuplicateIdIsShadowed` shows what a duplicate id does.
- The review form admits only ratings 1..5 (functionality.js:144), but the
  import path rebuilds records without any check (functionality.js:208).
  `Handlers.UploadBypassesRatingRange` shows an import bringing in a rating
  of 7. Ratings in 1..5 therefore hold only through sessions made of form
  events (`Handlers.RunKeepsMeansInRange`). Given fresh ids for new books,
  each form event keeps ids unique (`Handlers.StepKeepsUniqueIds`); whether
  the ids are fresh depends on the clock, which is not modelled.
- `deleteBook` saves even when no book matches (functionality.js:52).
  `Manager.DeleteMissingIdRewritesStore` shows that such a save still changes
  a store whose records lacked fields.

## Model

| member | source | states |
|---|---|---|
| `Books.AverageRating` | functionality.js:25-29 | the result is the "No reviews yet" marker exactly when there are no reviews; otherwise the mean times the number of reviews equals the sum of the ratings |
| `Books.MeanWithinRatingRange` | functionality.js:25-28 | when every rating lies in 1..5, any mean shown lies in [1, 5] |
| `Books.SumRatings` | functionality.js:27 | with every rating in 1..5, the front-to-back total lies between the number of reviews and five times it |
| `Books.Progress` | functionality.js:31-33 | the result is "N/A" exactly when pages <= 0; otherwise the percentage times pages equals pagesRead·100 |
| `Books.ProgressAtMost100Iff` | functionality.js:31-32 | for a positive page count and a non-negative count read, as the form at functionality.js:129 guarantees, the percentage is non-negative, and it is at most 100 exactly when pagesRead <= pages, so progress above 100% is possible |
| `Books.NewBook` | functionality.js:15-22 | a book built from only id, title, author and genre keeps those four values and takes the defaults of zero pages, zero pages read and no reviews, which make it show both the no-reviews marker and "N/A" |
| `Books.DisplayExamples` | functionality.js:25-32 | ratings 4 and 5 give the mean 4.5; 50 of 200 pages gives 25 percent |
| `Collection.FirstIndex` | functionality.js:58-59 | the index is absent exactly when no book carries the id; otherwise it is the first position that carries it |
| `Collection.FindBookById` | functionality.js:58-59 | the result is none exactly when the id is not listed; otherwise it is the book at the first position that carries the id |
| `Collection.FindWhenUnique` | functionality.js:58-59 | with unique ids, looking up a book's own id returns that book |
| `Collection.AddBook` | functionality.js:42-43 | the length grows by one, the earlier books are unchanged and in order, and the new book is last |
| `Collection.AddBookThenFind` | functionality.js:42-43 | after an add, an id already listed finds the same book as before; the new book is found only under a fresh id; other ids find nothing |
| `Collection.AddBookUniqueIff` | functionality.js:42-43 | an add keeps ids unique exactly when the new id is fresh, because duplicates are not refused |
| `Collection.AddAllThenFindEach` | functionality.js:42-43 | adding books with distinct ids to an empty list gives one entry per add, and each id then finds its own book |
| `Collection.DuplicateIdIsShadowed` | functionality.js:58-59 | a book added under a taken id is never found, and a progress update or review for that id leaves it untouched |
| `Collection.DeleteBook` | functionality.js:50-51 | a book remains exactly when it was there and its id differs from the deleted id; the list cannot grow |
| `Collection.DeleteBookMissingId` | functionality.js:50-51 | the list is unchanged exactly when no book carries the id |
| `Collection.DeleteBookConcat` | functionality.js:50-51 | the filter acts on each part of the list independently, so the kept books stay in their original order |
| `Collection.DeleteBookThenFind` | functionality.js:50-59 | afterwards the deleted id finds nothing, and every other id finds what it found before |
| `Collection.DeleteBookUnique` | functionality.js:50-51 | with unique ids, a delete keeps them unique and removes exactly one book when the id is present, none otherwise |
| `Collection.UpdateBookProgress` | functionality.js:62-66 | the length is kept; only the first book carrying the id changes, and only in pages and pagesRead; a missing id leaves the list unchanged |
| `Collection.UpdateBookProgressThenFind` | functionality.js:62-66 | the ids are unchanged, and the book found under the id is the earlier one with the new page counts |
| `Collection.UpdateBookProgressIdempotent` | functionality.js:62-66 | repeating the same update changes nothing further |
| `Collection.AddReview` | functionality.js:73-76 | the length is kept; only the first book carrying the id changes, and only by one review appended after its existing reviews; a missing id leaves the list unchanged |
| `Collection.AddReviewThenFind` | functionality.js:73-76 | the ids are unchanged; the book found under the id has the new review last; its rating total grows by the new rating |
| `Storage.Encode` | functionality.js:84 | the record written for a book has no missing field and carries the book's id, title, author and genre |
| `Storage.Rebuild` | functionality.js:89 | the four text fields are copied; a missing pages or pagesRead becomes 0; missing reviews become []; present values are kept |
| `Storage.EncodeAll` | functionality.js:84 | one stored record per book, in list order |
| `Storage.RebuildAll` | functionality.js:89 | one book per stored record, in order, each rebuilt with the defaults |
| `Storage.Save` | functionality.js:83-85 | the store holds one complete record per book, with the same ids in the same order |
| `Storage.Load` | functionality.js:87-90 | an absent key gives the empty list; otherwise there is one book per record, with the same ids in the same order |
| `Storage.RebuildEncode` | functionality.js:84-89 | rebuilding a saved book gives the book back |
| `Storage.EncodeRebuildIff` | functionality.js:89 | a record survives a rebuild-and-save cycle unchanged exactly when none of its fields is missing |
| `Storage.LoadSave` | functionality.js:83-89 | loading what was saved gives an equal list: same ids, fields, order and review order |
| `Storage.LoadSaveLoad` | functionality.js:83-89 | saving loaded books and loading again changes nothing; the defaults are applied once |
| `Storage.SaveLoadComplete` | functionality.js:83-89 | a store of complete records is written back unchanged after a load and a save |
| `Manager.Construct` | functionality.js:37-40 | the constructor's state is in sync with the store it read; an absent key gives no books |
| `Manager.AddBook` | functionality.js:42-47 | the list gains the book at the end, the new list is written to the store, and the "added" notice is raised |
| `Manager.DeleteBook` | functionality.js:50-55 | the list is filtered and then written to the store, even when nothing matched; a restart finds no book under the deleted id; the notice is always raised |
| `Manager.DeleteMissingIdRewritesStore` | functionality.js:50-52 | deleting an id nobody carries keeps the books but still rewrites a store whose record lacked fields |
| `Manager.UpdateBookProgress` | functionality.js:62-71 | a missing id leaves the state, including the store, unchanged and raises no notice; otherwise the updated list is written to the store and announced; sync is preserved |
| `Manager.AddReview` | functionality.js:73-81 | a missing id leaves the state unchanged and raises no notice; otherwise the list with the review is written to the store and announced; sync is preserved |
| `Manager.ReplaceAll` | functionality.js:208-212 | the list becomes the records rebuilt exactly as a load would rebuild them, one per record; the new list is written to the store and announced |
| `Handlers.HandleUpload` | functionality.js:206-215 | an array replaces the list with its rebuilt records and is saved; any other value leaves the state unchanged and raises the format warning |
| `Handlers.HandleSubmitBook` | functionality.js:96-109 | with title, author and genre all non-empty, the new book with the event's id is appended, saved and announced; otherwise nothing changes and the fill-all-fields warning is raised; sync is preserved |
| `Handlers.HandleClickDelete` | functionality.js:112-119 | a selected id is deleted, saved and announced, even when no book carries it; no selection changes nothing and raises the select-a-book warning; sync is preserved |
| `Handlers.ProgressFormShowsPercent` | functionality.js:129-130 | a listed book updated through a progress form that passes the check is still found under its id and shows a percentage, never "N/A" |
| `Handlers.HandleSubmitProgress` | functionality.js:122-134 | a form that passes the check reaches the progress update, which either changes the list as the list operation does, saves it and announces it, or raises nothing and changes nothing; a failing form changes nothing and raises the fill-correctly warning; sync is preserved |
| `Handlers.HandleSubmitReview` | functionality.js:137-150 | a form that passes the check reaches the review update, which either changes the list as the list operation does, saves it and announces it, or raises nothing and changes nothing; a failing form changes nothing and raises the fill-correctly warning; sync is preserved |
| `Handlers.ReviewFormKeepsRatings` | functionality.js:144-145 | a review the form admits, added to a list whose ratings all lie in 1..5, keeps every rating in 1..5 |
| `Handlers.Step` | functionality.js:96-150 | an event raises a warning exactly when its form check fails (the checks at functionality.js:103, 115, 129 and 144) or an upload is not an array, and then changes nothing; an accepted event applies the matching list operation (add, delete, progress, review, replace); adds, deletes and uploads always announce; every announced change is saved; a silent miss changes nothing; sync is preserved |
| `Handlers.RunKeepsInSync` | functionality.js:42-85 | after any sequence of events, a restart rebuilds exactly the books in memory |
| `Handlers.StepKeepsRatingsInRange` | functionality.js:144-145 | events other than uploads keep every stored rating within 1..5 |
| `Handlers.RunKeepsMeansInRange` | functionality.js:138-150 | a session without uploads that starts with ratings in 1..5 leaves every mean shown within [1, 5] |
| `Handlers.UploadBypassesRatingRange` | functionality.js:206-208 | an upload with a rating of 7 is accepted unchanged, and the mean shown is 7 |
| `Handlers.StepKeepsUniqueIds` | functionality.js:103-105 | form events whose new-book ids are fresh keep ids unique |
| `Handlers.UploadExamples` | functionality.js:206-215 | importing a one-book array gives exactly that book; a non-array value leaves the state unchanged |

## Left out

- Presentation is not modelled: `showPopupMessage` with its timer, `updateBookDropdown`, `displayBooks` and their HTML, the event wiring, and the form resets. Only the choice of notice is kept.
- `Books.AverageRating`: gives the exact mean as a `real`. The page shows `toFixed(1)` text; the floating-point rounding and the string formatting are not modelled.
- `Books.Progress`: gives the exact percentage as a `real`. The page shows `toFixed(1)` text with a "%" sign; this is not modelled.
- The JSON text is not modelled: `JSON.stringify`, `JSON.parse`, `localStorage` and `FileReader`. The store holds decoded records instead. The download anchor and its pretty-printed file are I/O and are not modelled.
- The upload handler's parse-error `catch` is not modelled. An uploaded file arrives as an already decoded value: either an array of records or anything else.
- Uploaded array elements that are not objects are not modelled. A `null` element makes the rebuild throw, and the `catch` reports it. A number, string, boolean or array element is rebuilt into a book whose fields are undefined (pages 0, pagesRead 0, reviews `[]`), which is then saved and announced.
- A stored value that does not parse, or that is truthy and not an array (or an array holding `null`), makes the constructor throw. This is not modelled. The store is `None` or an array of records; `None` stands for an absent key and for every falsy stored value, which `|| []` turns into the empty list.
- Dynamic typing is not modelled:
  - ids, titles, authors and genres are always strings;
  - numeric ids after an import, and their strict-equality mismatches, are not covered;
  - a JSON `null` page count is not covered; a default parameter would not replace it;
  - `reviews` values that are truthy but not arrays are not covered.
- Ids come with each event. The page's `Date.now().toString()` clock read is not modelled.
- Form input arrives already trimmed and parsed. `trim` and `parseInt` are not modelled, and neither is a `NaN` result, which every guard rejects.
- Ratings and page counts are modelled as unbounded integers, and the derived values as exact reals. The import path accepts any JSON number (functionality.js:206-208), and `parseInt` of a long digit string exceeds 2^53 (functionality.js:126-127, 142). Fractional ratings or page counts, values beyond 2^53 and the rounding of double arithmetic are not covered.

=== FILE: book_manager.dfy ===
/** `BookManager` as the page uses it: the in-memory list together with the
    store it writes after every change, and the pop-up notice each operation
    raises (functionality.js, class `BookManager`). */
module Manager {
  import opened Wrappers
  import opened Books
  import Collection
  import opened Storage

  /** The pop-up messages of the page; only which one is shown is modelled. */
  datatype Notice =
    | BookAdded
    | BookDeleted
    | ProgressUpdated
    | ReviewAdded
    | BooksUploaded
    | FillAllFields
    | SelectBookToDelete
    | FillFieldsCorrectly
    | InvalidFormat
  {
    /** The warnings shown when input is rejected. */
    predicate IsWarning() {
      FillAllFields? || SelectBookToDelete? || FillFieldsCorrectly? || InvalidFormat?
    }
  }

  /** The manager's `books` list and the value stored under "books". */
  datatype State = State(books: seq<Book>, store: Store)

  /** The state after an operation, and the notice it raised, if any. */
  datatype Outcome = Outcome(state: State, notice: Option<Notice>)

  /** A restart would rebuild exactly the books in memory. */
  predicate InSync(s: State) {
    Load(s.store) == s.books
  }

  /** The constructor: start from whatever the store holds. */
  function Construct(store: Store): (s: State)
    ensures InSync(s) && s.store == store
    ensures store.None? ==> s.books == []
  {
    State(Load(store), store)
  }

  /** Replace the list and write it to the store, as every saving path does. */
  function Persist(books: seq<Book>): (s: State)
    ensures s.books == books && s.store == Save(books)
    ensures InSync(s)
  {
    LoadSave(books);
    State(books, Save(books))
  }

  function AddBook(s: State, book: Book): (r: Outcome)
    ensures r.state.books == Collection.AddBook(s.books, book)
    ensures r.state.store == Save(r.state.books)
    ensures InSync(r.state) && r.notice == Some(BookAdded)
  {
    Outcome(Persist(Collection.AddBook(s.books, book)), Some(BookAdded))
  }

  /** Saves and notifies even when no book carries `id`. */
  function DeleteBook(s: State, id: string): (r: Outcome)
    ensures r.state.books == Collection.DeleteBook(s.books, id)
    ensures r.state.store == Save(r.state.books)
    ensures InSync(r.state) && r.notice == Some(BookDeleted)
    ensures Collection.FindBookById(Load(r.state.store), id) == None
  {
    var r := Outcome(Persist(Collection.DeleteBook(s.books, id)), Some(BookDeleted));
    Collection.DeleteBookThenFind(s.books, id, id);
    r
  }

  /** Deleting an id nobody carries still rewrites the store: a stored record
      that lacked fields is written back complete. */
  lemma DeleteMissingIdRewritesStore()
    ensures var s := Construct(Some([RawBook("1", "T", "A", "G", None, None, None)]));
      && DeleteBook(s, "2").state.books == s.books
      && DeleteBook(s, "2").state.store != s.store
  {
  }

  /** A missing id is a silent no-op: no save, no notice. */
  function UpdateBookProgress(s: State, id: string, pages: int, pagesRead: int): (r: Outcome)
    ensures id !in Collection.Ids(s.books) ==> r == Outcome(s, None)
    ensures id in Collection.Ids(s.books) ==>
      && r.state.books == Collection.UpdateBookProgress(s.books, id, pages, pagesRead)
      && r.state.store == Save(r.state.books)
      && InSync(r.state)
      && r.notice == Some(ProgressUpdated)
    ensures InSync(s) ==> InSync(r.state)
  {
    match Collection.FindBookById(s.books, id)
    case None => Outcome(s, None)
    case Some(_) =>
      Outcome(Persist(Collection.UpdateBookProgress(s.books, id, pages, pagesRead)), Some(ProgressUpdated))
  }

  /** A missing id is a silent no-op: no save, no notice. */
  function AddReview(s: State, id: string, rating: int, text: string): (r: Outcome)
    ensures id !in Collection.Ids(s.books) ==> r == Outcome(s, None)
    ensures id in Collection.Ids(s.books) ==>
      && r.state.books == Collection.AddReview(s.books, id, rating, text)
      && r.state.store == Save(r.state.books)
      && InSync(r.state)
      && r.notice == Some(ReviewAdded)
    ensures InSync(s) ==> InSync(r.state)
  {
    match Collection.FindBookById(s.books, id)
    case None => Outcome(s, None)
    case Some(_) =>
      Outcome(Persist(Collection.AddReview(s.books, id, rating, text)), Some(ReviewAdded))
  }

  /** The upload handler's success path: the list is replaced by the decoded
      records rebuilt as books, then saved. */
  function ReplaceAll(s: State, items: seq<RawBook>): (r: Outcome)
    ensures r.state.books == Load(Some(items))
    ensures |r.state.books| == |items|
    ensures r.state.store == Save(r.state.books)
    ensures InSync(r.state) && r.notice == Some(BooksUploaded)
  {
    Outcome(Persist(RebuildAll(items)), Some(BooksUploaded))
  }
}

=== FILE: books.dfy ===
/** One tracked book and the two values it derives for display
    (functionality.js, class `Book`). */
module Books {

  /** A review pushed by `addReview`: a star rating and its free text. */
  datatype Review = Review(rating: int, text: string)

  /** The fields a `Book` object carries. Nothing in functionality.js bounds
      `pagesRead` by `pages`. */
  datatype Book = Book(
    bookId: string,
    title: string,
    author: string,
    genre: string,
    pages: int,
    pagesRead: int,
    reviews: seq<Review>)

  /** The constructor called with only its four required arguments: the
      default parameters give zero pages, zero pages read and no reviews. */
  function NewBook(id: string, title: string, author: string, genre: string): (b: Book)
    ensures b.bookId == id && b.title == title && b.author == author && b.genre == genre
    ensures b.pages == 0 && b.pagesRead == 0 && b.reviews == []
    ensures AverageRating(b) == NoReviewsYet
    ensures Progress(b) == NotApplicable
  {
    Book(id, title, author, genre, 0, 0, [])
  }

  /** The rating range the review form admits before calling `addReview`. */
  predicate RatingInRange(rating: int) {
    1 <= rating <= 5
  }

  /** Every review of the sequence has a rating the review form admits. */
  predicate AllRatingsInRange(rs: seq<Review>) {
    forall i :: 0 <= i < |rs| ==> RatingInRange(rs[i].rating)
  }

  /** Sum of the ratings, accumulated front to back as `reduce` does. With
      every rating in 1..5 the total lies between the count and five times it. */
  function SumRatings(rs: seq<Review>): (total: int)
    ensures AllRatingsInRange(rs) ==> |rs| <= total <= 5 * |rs|
  {
    if |rs| == 0 then 0
    else
      var front := rs[..|rs| - 1];
      assert AllRatingsInRange(rs) ==> AllRatingsInRange(front) by {
        assert forall i :: 0 <= i < |front| ==> front[i] == rs[i];
      }
      SumRatings(front) + rs[|rs| - 1].rating
  }

  /** What `getAverageRating` shows: the marker "No reviews yet", or the
      exact mean of the ratings (the one-decimal rendering is not modelled). */
  datatype RatingDisplay = NoReviewsYet | Mean(value: real)

  /** What `getProgress` shows: the marker "N/A", or the exact percentage
      read (the one-decimal rendering and the "%" sign are not modelled). */
  datatype ProgressDisplay = NotApplicable | Percent(value: real)

  function AverageRating(b: Book): (r: RatingDisplay)
    ensures r.NoReviewsYet? <==> |b.reviews| == 0
    ensures r.Mean? ==> r.value * (|b.reviews| as real) == SumRatings(b.reviews) as real
  {
    if |b.reviews| == 0 then NoReviewsYet
    else Mean(SumRatings(b.reviews) as real / |b.reviews| as real)
  }

  function Progress(b: Book): (r: ProgressDisplay)
    ensures r.NotApplicable? <==> b.pages <= 0
    ensures r.Percent? ==> r.value * (b.pages as real) == (b.pagesRead * 100) as real
  {
    if b.pages > 0 then Percent((b.pagesRead as real / b.pages as real) * 100.0)
    else NotApplicable
  }

  /** Dividing by a positive count keeps an upper bound scaled by it. */
  lemma QuotientAtMost(s: real, n: real, c: real)
    requires n > 0.0
    ensures s / n <= c <==> s <= c * n
  {
  }

  /** With every rating in 1..5, as the review form enforces, the mean lies
      in [1, 5]. */
  lemma MeanWithinRatingRange(b: Book)
    requires AllRatingsInRange(b.reviews)
    ensures AverageRating(b).Mean? ==> 1.0 <= AverageRating(b).value <= 5.0
  {
    if |b.reviews| > 0 {
      var n := |b.reviews| as real;
      var s := SumRatings(b.reviews) as real;
      QuotientAtMost(s, n, 5.0);
      QuotientAtMost(-s, n, -1.0);
      assert -s / n == -(s / n);
    }
  }

  /** The percentage lies in [0, 100] exactly when no more pages were read
      than the book has; nothing in the source rules out the other case. */
  lemma ProgressAtMost100Iff(b: Book)
    requires b.pages > 0 && b.pagesRead >= 0
    ensures 0.0 <= Progress(b).value
    ensures Progress(b).value <= 100.0 <==> b.pagesRead <= b.pages
  {
    var n := b.pages as real;
    var read := b.pagesRead as real;
    QuotientAtMost(read, n, 1.0);
    assert read / n >= 0.0;
  }

  /** Ratings 4 and 5 average to 4.5; 50 of 200 pages is 25 percent. */
  lemma DisplayExamples()
    ensures AverageRating(Book("1", "T", "A", "G", 0, 0, [Review(4, ""), Review(5, "")])) == Mean(4.5)
    ensures Progress(Book("1", "T", "A", "G", 200, 50, [])) == Percent(25.0)
  {
    var rs := [Review(4, ""), Review(5, "")];
    assert rs[..1] == [Review(4, "")];
    assert SumRatings(rs) == 9;
  }
}

=== FILE: collection.dfy ===
/** The ordered `books` list of `BookManager` and the operations that read or
    change it, without persistence or notifications (functionality.js,
    class `BookManager`). */
module Collection {
  import opened Wrappers
  import opened Books

  /** The ids of the collection, in list order. */
  function Ids(books: seq<Book>): seq<string> {
    seq(|books|, i requires 0 <= i < |books| => books[i].bookId)
  }

  /** Position `i` holds the first book whose id is `id`. */
  predicate FirstMatch(books: seq<Book>, id: string, i: int) {
    && 0 <= i < |books|
    && books[i].bookId == id
    && forall j :: 0 <= j < i ==> books[j].bookId != id
  }

  /** No two books share an id. Nothing in functionality.js checks this. */
  predicate UniqueIds(books: seq<Book>) {
    forall i, j :: 0 <= i < j < |books| ==> books[i].bookId != books[j].bookId
  }

  /** An id is listed exactly when some book carries it. */
  lemma InIdsIff(books: seq<Book>, id: string)
    ensures id in Ids(books) <==> exists i :: 0 <= i < |books| && books[i].bookId == id
  {
    if id in Ids(books) {
      var i :| 0 <= i < |Ids(books)| && Ids(books)[i] == id;
      assert books[i].bookId == id;
    } else {
      forall i | 0 <= i < |books|
        ensures books[i].bookId != id
      {
        assert Ids(books)[i] == books[i].bookId;
      }
    }
  }

  /** Uniqueness depends on the ids alone. */
  lemma SameIdsSameUniqueness(a: seq<Book>, b: seq<Book>)
    requires Ids(a) == Ids(b)
    ensures UniqueIds(a) <==> UniqueIds(b)
  {
    assert |a| == |Ids(a)| == |Ids(b)| == |b|;
    assert forall i :: 0 <= i < |a| ==> a[i].bookId == Ids(a)[i] == Ids(b)[i] == b[i].bookId;
  }

  /** The position `Array.prototype.find` stops at, scanning front to back. */
  function FirstIndex(books: seq<Book>, id: string): (r: Option<nat>)
    ensures r.None? <==> forall j :: 0 <= j < |books| ==> books[j].bookId != id
    ensures r.None? <==> id !in Ids(books)
    ensures r.Some? ==> FirstMatch(books, id, r.value)
  {
    InIdsIff(books, id);
    if |books| == 0 then None
    else if books[0].bookId == id then Some(0)
    else
      match FirstIndex(books[1..], id)
      case None =>
        assert forall j :: 1 <= j < |books| ==> books[1..][j - 1] == books[j];
        None
      case Some(k) => Some(k + 1)
  }

  /** `findBookById`: the first book carrying `id`, or none. */
  function FindBookById(books: seq<Book>, id: string): (r: Option<Book>)
    ensures r.None? <==> id !in Ids(books)
    ensures r.Some? ==> exists i :: FirstMatch(books, id, i) && books[i] == r.value
  {
    match FirstIndex(books, id)
    case None => None
    case Some(i) => Some(books[i])
  }

  /** `addBook`: push onto the end; duplicates of an id are not refused. */
  function AddBook(books: seq<Book>, book: Book): (r: seq<Book>)
    ensures |r| == |books| + 1
    ensures r[..|books|] == books && r[|books|] == book
  {
    books + [book]
  }

  /** `deleteBook`: keep exactly the books whose id differs from `id`. */
  function DeleteBook(books: seq<Book>, id: string): (r: seq<Book>)
    ensures forall b {:trigger b in r} :: b in r <==> b in books && b.bookId != id
    ensures |r| <= |books|
  {
    if |books| == 0 then []
    else
      var rest := DeleteBook(books[1..], id);
      if books[0].bookId == id then rest else [books[0]] + rest
  }

  /** `updateBookProgress` on the list: the first book carrying `id` gets the
      new page counts; every other book, and every other field, stays. */
  function UpdateBookProgress(books: seq<Book>, id: string, pages: int, pagesRead: int): (r: seq<Book>)
    ensures |r| == |books|
    ensures forall i :: 0 <= i < |books| ==>
      r[i] == if FirstMatch(books, id, i) then books[i].(pages := pages, pagesRead := pagesRead) else books[i]
    ensures id !in Ids(books) ==> r == books
  {
    match FirstIndex(books, id)
    case None => books
    case Some(i) => books[i := books[i].(pages := pages, pagesRead := pagesRead)]
  }

  /** `addReview` on the list: the first book carrying `id` gets the review
      appended after its existing ones; nothing else changes. */
  function AddReview(books: seq<Book>, id: string, rating: int, text: string): (r: seq<Book>)
    ensures |r| == |books|
    ensures forall i :: 0 <= i < |books| ==>
      r[i] == if FirstMatch(books, id, i) then books[i].(reviews := books[i].reviews + [Review(rating, text)]) else books[i]
    ensures id !in Ids(books) ==> r == books
  {
    match FirstIndex(books, id)
    case None => books
    case Some(i) => books[i := books[i].(reviews := books[i].reviews + [Review(rating, text)])]
  }

  /** Adding books one by one, front to back, as the add-book form does. */
  function AddAll(books: seq<Book>, added: seq<Book>): seq<Book>
    decreases |added|
  {
    if |added| == 0 then books else AddAll(AddBook(books, added[0]), added[1..])
  }

  /** After `addBook`, lookups find what they found before; the new book is
      found only under an id no earlier book carries. */
  lemma AddBookThenFind(books: seq<Book>, book: Book, id: string)
    ensures FindBookById(AddBook(books, book), id) ==
      if id in Ids(books) then FindBookById(books, id)
      else if book.bookId == id then Some(book)
      else None
  {
    var r := AddBook(books, book);
    InIdsIff(books, id);
    InIdsIff(r, id);
    assert forall j :: 0 <= j < |books| ==> r[j] == books[j];
    match FirstIndex(books, id)
    case Some(i) =>
      assert FirstMatch(r, id, i);
    case None =>
      if book.bookId == id {
        assert FirstMatch(r, id, |books|);
      }
  }

  /** Appending keeps ids unique exactly when the new id is fresh. */
  lemma AddBookUniqueIff(books: seq<Book>, book: Book)
    ensures UniqueIds(AddBook(books, book)) <==> UniqueIds(books) && book.bookId !in Ids(books)
  {
    var r := AddBook(books, book);
    InIdsIff(books, book.bookId);
    assert forall j :: 0 <= j < |books| ==> r[j] == books[j];
    if UniqueIds(r) {
      assert forall j :: 0 <= j < |books| ==> r[j].bookId != r[|books|].bookId;
    }
  }

  /** With unique ids, each book is what a lookup of its own id returns. */
  lemma FindWhenUnique(books: seq<Book>, i: int)
    requires UniqueIds(books) && 0 <= i < |books|
    ensures FindBookById(books, books[i].bookId) == Some(books[i])
  {
  }

  /** Adding one by one is appending the whole sequence. */
  lemma {:induction false} AddAllAppends(books: seq<Book>, added: seq<Book>)
    ensures AddAll(books, added) == books + added
    decreases |added|
  {
    if |added| > 0 {
      AddAllAppends(AddBook(books, added[0]), added[1..]);
      assert AddBook(books, added[0]) + added[1..] == books + added;
    }
  }

  /** Adding books with distinct ids to an empty collection gives one entry
      per add, and each id then finds its own book. */
  lemma AddAllThenFindEach(added: seq<Book>)
    requires UniqueIds(added)
    ensures |AddAll([], added)| == |added|
    ensures forall i :: 0 <= i < |added| ==> FindBookById(AddAll([], added), added[i].bookId) == Some(added[i])
  {
    AddAllAppends([], added);
    assert [] + added == added;
    forall i | 0 <= i < |added|
      ensures FindBookById(added, added[i].bookId) == Some(added[i])
    {
      FindWhenUnique(added, i);
    }
  }

  /** `deleteBook` filters each part of the list independently, so the books
      it keeps stay in their original order. */
  lemma {:induction false} DeleteBookConcat(a: seq<Book>, b: seq<Book>, id: string)
    ensures DeleteBook(a + b, id) == DeleteBook(a, id) + DeleteBook(b, id)
  {
    if |a| == 0 {
      assert a + b == b;
    } else {
      var keep := if a[0].bookId == id then [] else [a[0]];
      var tail := DeleteBook(a[1..], id);
      var rest := DeleteBook(b, id);
      assert DeleteBook(a + b, id) == keep + DeleteBook(a[1..] + b, id) by {
        assert (a + b)[0] == a[0];
        assert (a + b)[1..] == a[1..] + b;
      }
      DeleteBookConcat(a[1..], b, id);
      assert DeleteBook(a, id) == keep + tail;
      assert keep + (tail + rest) == (keep + tail) + rest;
    }
  }

  /** After `deleteBook(id)` no book is found under `id`, and every other id
      finds what it found before. */
  lemma {:induction false} DeleteBookThenFind(books: seq<Book>, id: string, other: string)
    ensures FindBookById(DeleteBook(books, id), id) == None
    ensures other != id ==> FindBookById(DeleteBook(books, id), other) == FindBookById(books, other)
  {
    var r := DeleteBook(books, id);
    InIdsIff(r, id);
    forall i | 0 <= i < |r| ensures r[i].bookId != id {
      assert r[i] in r;
    }
    if |books| > 0 && other != id {
      var rest := DeleteBook(books[1..], id);
      DeleteBookThenFind(books[1..], id, other);
      FindOnCons(books[0], books[1..], other);
      if books[0].bookId != id {
        FindOnCons(books[0], rest, other);
      }
      assert [books[0]] + books[1..] == books;
    }
  }

  /** A lookup on a list with a known first element. */
  lemma FindOnCons(head: Book, tail: seq<Book>, id: string)
    ensures FindBookById([head] + tail, id) ==
      if head.bookId == id then Some(head) else FindBookById(tail, id)
  {
  }

  /** `deleteBook` of an id nobody carries leaves the list as it was. */
  lemma {:induction false} DeleteBookMissingId(books: seq<Book>, id: string)
    ensures id !in Ids(books) <==> DeleteBook(books, id) == books
  {
    InIdsIff(books, id);
    if |books| > 0 && id !in Ids(books) {
      var tail := books[1..];
      InIdsIff(tail, id);
      assert forall k :: 0 <= k < |tail| ==> tail[k] == books[k + 1];
      DeleteBookMissingId(tail, id);
      assert [books[0]] + tail == books;
    }
    if id in Ids(books) {
      var k :| 0 <= k < |books| && books[k].bookId == id;
      assert books[k] !in DeleteBook(books, id);
    }
  }

  /** Ids are unique along a list with a known first element exactly when
      they are unique along the rest and the first id is not among them. */
  lemma ConsUniqueIff(head: Book, tail: seq<Book>)
    ensures UniqueIds([head] + tail) <==> UniqueIds(tail) && head.bookId !in Ids(tail)
  {
    var l := [head] + tail;
    InIdsIff(tail, head.bookId);
    assert forall k :: 0 <= k < |tail| ==> l[k + 1] == tail[k];
    if UniqueIds(tail) && head.bookId !in Ids(tail) {
      forall i, j | 0 <= i < j < |l| ensures l[i].bookId != l[j].bookId {
        assert l[j] == tail[j - 1];
        if i > 0 {
          assert l[i] == tail[i - 1];
        }
      }
    }
    if UniqueIds(l) {
      forall i, j | 0 <= i < j < |tail| ensures tail[i].bookId != tail[j].bookId {
        assert l[i + 1] == tail[i] && l[j + 1] == tail[j];
      }
      forall k | 0 <= k < |tail| ensures tail[k].bookId != head.bookId {
        assert l[0] == head;
      }
    }
  }

  /** Deleting keeps ids unique, and with unique ids it removes exactly one
      book when the id is present. */
  lemma {:induction false} DeleteBookUnique(books: seq<Book>, id: string)
    requires UniqueIds(books)
    ensures UniqueIds(DeleteBook(books, id))
    ensures |DeleteBook(books, id)| == if id in Ids(books) then |books| - 1 else |books|
  {
    if |books| == 0 {
      InIdsIff(books, id);
    } else {
      var head, tail := books[0], books[1..];
      assert books == [head] + tail;
      ConsUniqueIff(head, tail);
      DeleteBookUnique(tail, id);
      var rest := DeleteBook(tail, id);
      InIdsIff(books, id);
      InIdsIff(tail, id);
      assert id in Ids(books) <==> head.bookId == id || id in Ids(tail) by {
        assert forall k :: 0 <= k < |tail| ==> tail[k] == books[k + 1];
        if id in Ids(books) {
          var k :| 0 <= k < |books| && books[k].bookId == id;
          if k > 0 {
            assert tail[k - 1].bookId == id;
          }
        }
      }
      if head.bookId == id {
        DeleteBookMissingId(tail, id);
      } else {
        InIdsIff(tail, head.bookId);
        InIdsIff(rest, head.bookId);
        forall j | 0 <= j < |rest| ensures rest[j].bookId != head.bookId {
          assert rest[j] in rest;
        }
        ConsUniqueIff(head, rest);
      }
    }
  }

  /** After `updateBookProgress`, the ids are the same and the book found under
      `id` is the one found before with the new page counts. */
  lemma UpdateBookProgressThenFind(books: seq<Book>, id: string, pages: int, pagesRead: int)
    ensures Ids(UpdateBookProgress(books, id, pages, pagesRead)) == Ids(books)
    ensures FindBookById(UpdateBookProgress(books, id, pages, pagesRead), id) ==
      match FindBookById(books, id)
      case None => None
      case Some(b) => Some(b.(pages := pages, pagesRead := pagesRead))
  {
  }

  /** Repeating the same progress update changes nothing more. */
  lemma UpdateBookProgressIdempotent(books: seq<Book>, id: string, pages: int, pagesRead: int)
    ensures UpdateBookProgress(UpdateBookProgress(books, id, pages, pagesRead), id, pages, pagesRead)
         == UpdateBookProgress(books, id, pages, pagesRead)
  {
  }

  /** After `addReview`, the ids are the same, the book found under `id` has
      the review as its last one, and its rating total grew by the rating. */
  lemma AddReviewThenFind(books: seq<Book>, id: string, rating: int, text: string)
    ensures Ids(AddReview(books, id, rating, text)) == Ids(books)
    ensures FindBookById(AddReview(books, id, rating, text), id) ==
      match FindBookById(books, id)
      case None => None
      case Some(b) => Some(b.(reviews := b.reviews + [Review(rating, text)]))
    ensures FindBookById(books, id).Some? ==>
      SumRatings(FindBookById(AddReview(books, id, rating, text), id).value.reviews)
        == SumRatings(FindBookById(books, id).value.reviews) + rating
  {
  }

  /** A book added under an id that is already taken is never found, and a
      progress update or a review under that id changes the earlier book
      instead. */
  lemma DuplicateIdIsShadowed(books: seq<Book>, book: Book, pages: int, pagesRead: int, rating: int, text: string)
    requires book.bookId in Ids(books)
    ensures FindBookById(AddBook(books, book), book.bookId) == FindBookById(books, book.bookId)
    ensures UpdateBookProgress(AddBook(books, book), book.bookId, pages, pagesRead)[|books|] == book
    ensures AddReview(AddBook(books, book), book.bookId, rating, text)[|books|] == book
  {
    AddBookThenFind(books, book, book.bookId);
    var all := AddBook(books, book);
    var i := FirstIndex(books, book.bookId).value;
    assert all[i] == books[i];
    assert !FirstMatch(all, book.bookId, |books|);
  }
}

=== FILE: handlers.dfy ===
/** The page's event handlers as far as they decide what reaches the
    manager: the form guards and the upload handler's array check
    (functionality.js, event listeners). Field values arrive already trimmed
    and parsed; book ids come with the event. */
module Handlers {
  import opened Wrappers
  import opened Books
  import Collection
  import opened Storage
  import opened Manager

  /** What `JSON.parse` made of an uploaded file: an array of book records,
      or any other value. */
  datatype Decoded = JsonArray(items: seq<RawBook>) | NotArray

  /** One user action. `SubmitBook` carries the id the page would take from
      the clock. */
  datatype Event =
    | SubmitBook(id: string, title: string, author: string, genre: string)
    | ClickDelete(id: string)
    | SubmitProgress(id: string, totalPages: int, pagesRead: int)
    | SubmitReview(id: string, rating: int, text: string)
    | Upload(decoded: Decoded)

  /** The add-book form needs all three text fields filled: a trimmed
      string is truthy exactly when it is not empty. */
  predicate BookFormValid(title: string, author: string, genre: string) {
    title != "" && author != "" && genre != ""
  }

  /** The progress form needs a selected book, a positive total and a
      non-negative count read. */
  predicate ProgressFormValid(id: string, totalPages: int, pagesRead: int) {
    id != "" && totalPages > 0 && pagesRead >= 0
  }

  /** The review form needs a selected book, some text and a rating in 1..5. */
  predicate ReviewFormValid(id: string, rating: int, text: string) {
    id != "" && text != "" && RatingInRange(rating)
  }

  /** The events a handler turns away with a warning before the manager is
      called: a failed form check, or an upload that is not an array. */
  predicate Rejected(e: Event) {
    match e
    case SubmitBook(_, title, author, genre) => !BookFormValid(title, author, genre)
    case ClickDelete(id) => id == ""
    case SubmitProgress(id, totalPages, pagesRead) => !ProgressFormValid(id, totalPages, pagesRead)
    case SubmitReview(id, rating, text) => !ReviewFormValid(id, rating, text)
    case Upload(decoded) => decoded.NotArray?
  }

  /** The upload handler: an array replaces the collection, anything else
      leaves it alone and reports the format error. */
  function HandleUpload(s: State, decoded: Decoded): (r: Outcome)
    ensures decoded.JsonArray? ==>
      && r.state.books == Load(Some(decoded.items))
      && r.state.store == Save(r.state.books)
      && InSync(r.state)
      && r.notice == Some(BooksUploaded)
    ensures decoded.NotArray? ==> r == Outcome(s, Some(InvalidFormat))
  {
    match decoded
    case JsonArray(items) => ReplaceAll(s, items)
    case NotArray => Outcome(s, Some(InvalidFormat))
  }

  /** The add-book form: filled fields add and save a new book with the
      event's id, anything else is turned away with a warning. */
  function HandleSubmitBook(s: State, id: string, title: string, author: string, genre: string): (r: Outcome)
    ensures !BookFormValid(title, author, genre) ==> r == Outcome(s, Some(FillAllFields))
    ensures BookFormValid(title, author, genre) ==>
      && r.state.books == Collection.AddBook(s.books, NewBook(id, title, author, genre))
      && r.state.store == Save(r.state.books)
      && r.notice == Some(BookAdded)
    ensures InSync(s) ==> InSync(r.state)
  {
    if BookFormValid(title, author, genre) then AddBook(s, NewBook(id, title, author, genre))
    else Outcome(s, Some(FillAllFields))
  }

  /** The delete button: a selected id is deleted (saved and announced even
      when no book carries it); no selection is turned away. */
  function HandleClickDelete(s: State, id: string): (r: Outcome)
    ensures id == "" ==> r == Outcome(s, Some(SelectBookToDelete))
    ensures id != "" ==>
      && r.state.books == Collection.DeleteBook(s.books, id)
      && r.state.store == Save(r.state.books)
      && r.notice == Some(BookDeleted)
    ensures InSync(s) ==> InSync(r.state)
  {
    if id != "" then DeleteBook(s, id) else Outcome(s, Some(SelectBookToDelete))
  }

  /** The progress form: valid numbers reach the manager, which stays
      silent when the id names no book; anything else is turned away. */
  function HandleSubmitProgress(s: State, id: string, totalPages: int, pagesRead: int): (r: Outcome)
    ensures !ProgressFormValid(id, totalPages, pagesRead) ==> r == Outcome(s, Some(FillFieldsCorrectly))
    ensures ProgressFormValid(id, totalPages, pagesRead) ==>
      && r.state.books == Collection.UpdateBookProgress(s.books, id, totalPages, pagesRead)
      && (r.notice.None? || r.notice == Some(ProgressUpdated))
      && (r.notice.Some? ==> r.state.store == Save(r.state.books))
      && (r.notice.None? ==> r.state == s)
    ensures InSync(s) ==> InSync(r.state)
  {
    if ProgressFormValid(id, totalPages, pagesRead) then
      UpdateBookProgress(s, id, totalPages, pagesRead)
    else Outcome(s, Some(FillFieldsCorrectly))
  }

  /** The review form: a valid review reaches the manager, which stays
      silent when the id names no book; anything else is turned away. */
  function HandleSubmitReview(s: State, id: string, rating: int, text: string): (r: Outcome)
    ensures !ReviewFormValid(id, rating, text) ==> r == Outcome(s, Some(FillFieldsCorrectly))
    ensures ReviewFormValid(id, rating, text) ==>
      && r.state.books == Collection.AddReview(s.books, id, rating, text)
      && (r.notice.None? || r.notice == Some(ReviewAdded))
      && (r.notice.Some? ==> r.state.store == Save(r.state.books))
      && (r.notice.None? ==> r.state == s)
    ensures InSync(s) ==> InSync(r.state)
  {
    if ReviewFormValid(id, rating, text) then
      AddReview(s, id, rating, text)
    else Outcome(s, Some(FillFieldsCorrectly))
  }

  /** One event, handed to its form's handler. A rejected event raises a
      warning and changes nothing; an accepted one reaches the matching
      manager operation. */
  function Step(s: State, e: Event): (r: Outcome)
    ensures Rejected(e) <==> r.notice.Some? && r.notice.value.IsWarning()
    ensures Rejected(e) ==> r.state == s
    ensures !Rejected(e) && (e.SubmitBook? || e.ClickDelete? || e.Upload?) ==> r.notice.Some?
    ensures !Rejected(e) && r.notice.Some? ==>
      !r.notice.value.IsWarning() && r.state.store == Save(r.state.books)
    ensures !Rejected(e) && e.SubmitBook? ==>
      r.state.books == Collection.AddBook(s.books, NewBook(e.id, e.title, e.author, e.genre))
    ensures !Rejected(e) && e.ClickDelete? ==> r.state.books == Collection.DeleteBook(s.books, e.id)
    ensures !Rejected(e) && e.SubmitProgress? ==>
      r.state.books == Collection.UpdateBookProgress(s.books, e.id, e.totalPages, e.pagesRead)
    ensures !Rejected(e) && e.SubmitReview? ==>
      r.state.books == Collection.AddReview(s.books, e.id, e.rating, e.text)
    ensures !Rejected(e) && e.Upload? ==> r.state.books == Load(Some(e.decoded.items))
    ensures r.notice.None? ==> r.state == s
    ensures InSync(s) ==> InSync(r.state)
  {
    match e
    case SubmitBook(id, title, author, genre) => HandleSubmitBook(s, id, title, author, genre)
    case ClickDelete(id) => HandleClickDelete(s, id)
    case SubmitProgress(id, totalPages, pagesRead) => HandleSubmitProgress(s, id, totalPages, pagesRead)
    case SubmitReview(id, rating, text) => HandleSubmitReview(s, id, rating, text)
    case Upload(decoded) => HandleUpload(s, decoded)
  }

  /** A session: the events handled one after the other. */
  function Run(s: State, events: seq<Event>): State
    decreases |events|
  {
    if |events| == 0 then s else Run(Step(s, events[0]).state, events[1..])
  }

  /** Every book's reviews have ratings the review form admits. */
  predicate RatingsInRange(books: seq<Book>) {
    forall i :: 0 <= i < |books| ==> AllRatingsInRange(books[i].reviews)
  }

  /** Whatever happened in a session, a restart rebuilds the books that were
      in memory: every change is saved before the handler returns. */
  lemma {:induction false} RunKeepsInSync(s: State, events: seq<Event>)
    requires InSync(s)
    ensures InSync(Run(s, events))
    decreases |events|
  {
    if |events| > 0 {
      RunKeepsInSync(Step(s, events[0]).state, events[1..]);
    }
  }

  lemma AddBookKeepsRatings(books: seq<Book>, book: Book)
    requires RatingsInRange(books) && AllRatingsInRange(book.reviews)
    ensures RatingsInRange(Collection.AddBook(books, book))
  {
    var r := Collection.AddBook(books, book);
    assert forall i :: 0 <= i < |books| ==> r[i] == books[i];
  }

  lemma DeleteBookKeepsRatings(books: seq<Book>, id: string)
    requires RatingsInRange(books)
    ensures RatingsInRange(Collection.DeleteBook(books, id))
  {
    var r := Collection.DeleteBook(books, id);
    forall i | 0 <= i < |r| ensures AllRatingsInRange(r[i].reviews) {
      assert r[i] in r;
    }
  }

  /** What the progress form's check buys: once a listed book is updated
      through it, that book shows a percentage, never "N/A". */
  lemma ProgressFormShowsPercent(books: seq<Book>, id: string, totalPages: int, pagesRead: int)
    requires ProgressFormValid(id, totalPages, pagesRead) && id in Collection.Ids(books)
    ensures Collection.FindBookById(Collection.UpdateBookProgress(books, id, totalPages, pagesRead), id).Some?
    ensures Progress(Collection.FindBookById(Collection.UpdateBookProgress(books, id, totalPages, pagesRead), id).value).Percent?
  {
    Collection.UpdateBookProgressThenFind(books, id, totalPages, pagesRead);
  }

  /** What the review form's check buys: a review it admits, added to a
      collection whose ratings all lie in 1..5, keeps every rating in 1..5. */
  lemma ReviewFormKeepsRatings(books: seq<Book>, id: string, rating: int, text: string)
    requires RatingsInRange(books) && ReviewFormValid(id, rating, text)
    ensures RatingsInRange(Collection.AddReview(books, id, rating, text))
  {
    var r := Collection.AddReview(books, id, rating, text);
    forall i | 0 <= i < |r| ensures AllRatingsInRange(r[i].reviews) {
      assert r[i].reviews == books[i].reviews || r[i].reviews == books[i].reviews + [Review(rating, text)];
    }
  }

  /** Form events keep every rating in 1..5; only an upload can bring in
      others. */
  lemma StepKeepsRatingsInRange(s: State, e: Event)
    requires RatingsInRange(s.books) && !e.Upload?
    ensures RatingsInRange(Step(s, e).state.books)
  {
    match e
    case SubmitBook(id, title, author, genre) =>
      AddBookKeepsRatings(s.books, NewBook(id, title, author, genre));
    case ClickDelete(id) =>
      DeleteBookKeepsRatings(s.books, id);
    case SubmitProgress(id, totalPages, pagesRead) =>
      var r := Collection.UpdateBookProgress(s.books, id, totalPages, pagesRead);
      assert forall i :: 0 <= i < |r| ==> r[i].reviews == s.books[i].reviews;
    case SubmitReview(id, rating, text) =>
      if ReviewFormValid(id, rating, text) {
        ReviewFormKeepsRatings(s.books, id, rating, text);
      }
  }

  /** A session without uploads that starts with ratings in 1..5 ends with
      every average rating either the marker or a mean in [1, 5]. */
  lemma {:induction false} RunKeepsMeansInRange(s: State, events: seq<Event>)
    requires RatingsInRange(s.books)
    requires forall k :: 0 <= k < |events| ==> !events[k].Upload?
    ensures RatingsInRange(Run(s, events).books)
    ensures forall i :: 0 <= i < |Run(s, events).books| ==>
      AverageRating(Run(s, events).books[i]).Mean? ==> 1.0 <= AverageRating(Run(s, events).books[i]).value <= 5.0
    decreases |events|
  {
    if |events| > 0 {
      StepKeepsRatingsInRange(s, events[0]);
      RunKeepsMeansInRange(Step(s, events[0]).state, events[1..]);
    }
    var books := Run(s, events).books;
    forall i | 0 <= i < |books|
      ensures AverageRating(books[i]).Mean? ==> 1.0 <= AverageRating(books[i]).value <= 5.0
    {
      MeanWithinRatingRange(books[i]);
    }
  }

  /** An upload is not checked against the review form: a rating of 7 comes
      in unchanged and the average can leave [1, 5]. */
  lemma UploadBypassesRatingRange(s: State)
    ensures var books := HandleUpload(s, JsonArray([RawBook("1", "T", "A", "G", None, None, Some([Review(7, "")]))])).state.books;
      && !RatingsInRange(books)
      && AverageRating(books[0]) == Mean(7.0)
  {
  }

  /** Form events with fresh ids for new books keep ids unique; an upload
      can bring in duplicates. */
  lemma StepKeepsUniqueIds(s: State, e: Event)
    requires Collection.UniqueIds(s.books) && !e.Upload?
    requires e.SubmitBook? ==> e.id !in Collection.Ids(s.books)
    ensures Collection.UniqueIds(Step(s, e).state.books)
  {
    match e
    case SubmitBook(id, title, author, genre) =>
      Collection.AddBookUniqueIff(s.books, NewBook(id, title, author, genre));
    case ClickDelete(id) =>
      Collection.DeleteBookUnique(s.books, id);
    case SubmitProgress(id, totalPages, pagesRead) =>
      var r := Collection.UpdateBookProgress(s.books, id, totalPages, pagesRead);
      Collection.UpdateBookProgressThenFind(s.books, id, totalPages, pagesRead);
      Collection.SameIdsSameUniqueness(s.books, r);
    case SubmitReview(id, rating, text) =>
      var r := Collection.AddReview(s.books, id, rating, text);
      Collection.AddReviewThenFind(s.books, id, rating, text);
      Collection.SameIdsSameUniqueness(s.books, r);
  }

  /** Importing the one-book array replaces the collection with exactly that
      book; a non-array leaves it as it was. */
  lemma UploadExamples(s: State)
    ensures HandleUpload(s, JsonArray([Encode(Book("1", "T", "A", "G", 100, 10, []))])).state.books
         == [Book("1", "T", "A", "G", 100, 10, [])]
    ensures HandleUpload(s, NotArray).state == s
  {
  }
}

=== FILE: storage.dfy ===
/** The persisted form of the collection: what `saveToJSON` writes under the
    "books" key and what `loadFromJSON` rebuilds from it. The JSON text itself
    is not modelled; the store holds the decoded records. */
module Storage {
  import opened Wrappers
  import opened Books

  /** A decoded book record. The fields the `Book` constructor gives defaults
      to may be missing (`None`); for `reviews`, `None` stands for every falsy
      value, none of which is an array. */
  datatype RawBook = RawBook(
    bookId: string,
    title: string,
    author: string,
    genre: string,
    pages: Option<int>,
    pagesRead: Option<int>,
    reviews: Option<seq<Review>>)

  /** The value `loadFromJSON` sees under the "books" key. `None` stands for
      an absent key and for every stored falsy value (`null`, `false`, `0`,
      `""`), all of which `JSON.parse(...) || []` turns into the empty list. */
  type Store = Option<seq<RawBook>>

  /** The record `JSON.stringify` produces for a book: every field present. */
  function Encode(b: Book): (raw: RawBook)
    ensures Complete(raw)
    ensures raw.bookId == b.bookId && raw.title == b.title
    ensures raw.author == b.author && raw.genre == b.genre
  {
    RawBook(b.bookId, b.title, b.author, b.genre, Some(b.pages), Some(b.pagesRead), Some(b.reviews))
  }

  /** A record with no field missing. */
  predicate Complete(raw: RawBook) {
    raw.pages.Some? && raw.pagesRead.Some? && raw.reviews.Some?
  }

  /** `new Book(...)` applied to a decoded record: missing page counts take the
      constructor's default 0, missing reviews become the empty list. */
  function Rebuild(raw: RawBook): (b: Book)
    ensures b.bookId == raw.bookId && b.title == raw.title
    ensures b.author == raw.author && b.genre == raw.genre
    ensures raw.pages.None? ==> b.pages == 0
    ensures raw.pages.Some? ==> b.pages == raw.pages.value
    ensures raw.pagesRead.None? ==> b.pagesRead == 0
    ensures raw.pagesRead.Some? ==> b.pagesRead == raw.pagesRead.value
    ensures raw.reviews.None? ==> b.reviews == []
    ensures raw.reviews.Some? ==> b.reviews == raw.reviews.value
  {
    Book(raw.bookId, raw.title, raw.author, raw.genre,
         ValueOr(raw.pages, 0), ValueOr(raw.pagesRead, 0), ValueOr(raw.reviews, []))
  }

  function EncodeAll(books: seq<Book>): (raws: seq<RawBook>)
    ensures |raws| == |books|
    ensures forall i :: 0 <= i < |books| ==> raws[i] == Encode(books[i])
  {
    if |books| == 0 then [] else [Encode(books[0])] + EncodeAll(books[1..])
  }

  function RebuildAll(raws: seq<RawBook>): (books: seq<Book>)
    ensures |books| == |raws|
    ensures forall i :: 0 <= i < |raws| ==> books[i] == Rebuild(raws[i])
  {
    if |raws| == 0 then [] else [Rebuild(raws[0])] + RebuildAll(raws[1..])
  }

  /** `saveToJSON`: the whole collection replaces whatever was stored. */
  function Save(books: seq<Book>): (s: Store)
    ensures s.Some? && |s.value| == |books|
    ensures forall i :: 0 <= i < |books| ==> Complete(s.value[i]) && s.value[i].bookId == books[i].bookId
  {
    Some(EncodeAll(books))
  }

  /** `loadFromJSON`: an absent key or a falsy value gives the empty
      collection, otherwise each record is rebuilt in order. */
  function Load(s: Store): (books: seq<Book>)
    ensures s.None? ==> books == []
    ensures s.Some? ==> |books| == |s.value|
    ensures s.Some? ==> forall i :: 0 <= i < |books| ==> books[i].bookId == s.value[i].bookId
  {
    match s
    case None => []
    case Some(raws) => RebuildAll(raws)
  }

  /** Rebuilding an encoded book gives the book back. */
  lemma RebuildEncode(b: Book)
    ensures Rebuild(Encode(b)) == b
  {
  }

  /** A record survives a rebuild-then-encode cycle unchanged exactly when
      none of its fields is missing. */
  lemma EncodeRebuildIff(raw: RawBook)
    ensures Encode(Rebuild(raw)) == raw <==> Complete(raw)
  {
  }

  /** Loading what was saved gives back the same books, fields, order and
      review order. */
  lemma {:induction false} LoadSave(books: seq<Book>)
    ensures Load(Save(books)) == books
  {
    var raws := EncodeAll(books);
    var back := RebuildAll(raws);
    forall i | 0 <= i < |books| ensures back[i] == books[i] {
      RebuildEncode(books[i]);
    }
  }

  /** Saving what was loaded and loading again gives the same books: the
      defaults are filled in once. */
  lemma LoadSaveLoad(s: Store)
    ensures Load(Save(Load(s))) == Load(s)
  {
  }

  /** A store that only holds complete records is exactly what saving its
      loaded books writes back. */
  lemma {:induction false} SaveLoadComplete(raws: seq<RawBook>)
    requires forall i :: 0 <= i < |raws| ==> Complete(raws[i])
    ensures Save(Load(Some(raws))) == Some(raws)
  {
    var back := EncodeAll(RebuildAll(raws));
    forall i | 0 <= i < |raws| ensures back[i] == raws[i] {
      EncodeRebuildIff(raws[i]);
    }
    assert back == raws;
  }
}

=== FILE: wrappers.dfy ===
/** The optional value used for "not found" lookups and for fields a stored
    record may lack. */
module Wrappers {

  datatype Option<T> = None | Some(value: T)

  /** The value held by `o`, or `fallback` when it holds none: what a
      JavaScript default parameter or `x || fallback` supplies for a missing
      field. */
  function ValueOr<T>(o: Option<T>, fallback: T): T {
    if o.Some? then o.value else fallback
  }
}
